=== FILE: README.md ===
# Wildlife tracker: the upload-to-classification path

The wildlife tracker lets a user upload a photo of an animal. The server's
upload handler (`handleUpload` in `server/controllers/imageController.js`)
does the following:
- it stages the uploaded buffer as a temporary file named from sixteen random bytes;
- it spawns the Python worker `server/classify.py` on that file and collects
  the worker's standard output and standard error chunk by chunk;
- it deletes the file and answers the request with exactly one JSON response.

The worker loads a ResNet model and a label table, classifies the image,
and, once its imports have succeeded, prints one JSON line: the
`{animalType, confidence}` result with exit status 0, or an `{"error": ...}`
object with exit status 1.

This project models that path in Dafny and proves what it promises.

- `wrappers.dfy` holds `Option` and `Result`.
- `hex.dfy` covers `Buffer.toString('hex')` and its inverse, which give the
  temporary name its uniqueness.
- `text.dfy` covers JavaScript's `String.prototype.trim` and Python's `str`
  of an integer.
- `paths.dfy` covers Node's POSIX `path.extname`, and `path.join` of an
  already normalised directory and one name, for the temporary path.
- `json.dfy` holds JSON values and the two things the controller asks of a
  parsed value: its `error` property and JavaScript truthiness. It also has
  `json.dumps` as the worker prints it (default separators, `ensure_ascii`).
- `image_controller.dfy` covers the controller:
  - the temporary name;
  - the eight responses, each with its status and body;
  - the pure decision `CloseReply` taken when the worker's streams close;
  - the class `UploadHandler`, which holds one request's life:
    - the temporary path, and whether the file is on disk;
    - the worker's state and the accumulated output;
    - the unlinks still pending, and the response sent;
    - a ghost trace of the effects, in order.
- `worker.dfy` covers the worker:
  - the label-table normalisation;
  - the run of the script as a method over an `Environment`. File existence,
    the decoded labels file, the network's faults and its prediction are
    parameters there.
- `pipeline.dfy` composes the two. Whatever the environment, this worker's
  output makes the controller answer 200 with the prediction or 500
  "Image classification failed". It never reaches the "Classification error"
  branch for a clean exit that reports an error.

The model follows the code as written, including where it is looser than one
might expect:
- the worker is run without a timeout;
- the 200 reply passes the parsed value through without checking
  `animalType` or `confidence`;
- the non-zero-exit reply carries `stderr` and `exitCode` but not the
  output;
- the `'error'` handler starts the cleanup without awaiting it and answers
  at once;
- `.error` of a parsed number, string, boolean or array is `undefined`, so
  such a value gives 200. Only `null` makes the property read throw.

## Model

| member | source | states |
|---|---|---|
| Hex.Encode | server/controllers/imageController.js:27 | the hex text of a buffer has two lower-case hex digits per byte |
| Hex.EncodeAt | server/controllers/imageController.js:27 | byte `i` is written at characters `2i` and `2i+1` of the hex text, high nibble first |
| Hex.DecodeEncode | server/controllers/imageController.js:27 | decoding the hex text of any buffer gives the buffer back |
| Hex.EncodeInjective | server/controllers/imageController.js:27 | distinct buffers have distinct hex texts |
| Text.TrimIsMaximalSlice | server/controllers/imageController.js:85 | `trim` returns a slice of its input; everything cut off on either side is white space; the slice neither starts nor ends with white space |
| Text.TrimEmptyIff | server/controllers/imageController.js:85-88 | the trimmed output is empty exactly when the output is all white space |
| Text.TrimLine | server/controllers/imageController.js:85 | a line not bounded by white space, followed by its line break, trims back to the line |
| Text.DecimalRoundTrip | server/classify.py:31 | reading back `str(n)` gives `n` |
| Text.DecimalInjective | server/classify.py:31 | distinct indices give distinct keys `str(i)` |
| Paths.ExtnameSpec | server/controllers/imageController.js:27 | `extname` has no separator and is a tail of the last segment. It is empty or a dot followed by no other dot. It is non-empty exactly when that segment has a dot after its first character and is not `..` |
| Paths.JoinLastSegment | server/controllers/imageController.js:28 | a name without separators joined under a directory follows a separator and is the path's last segment |
| Json.Lookup | server/controllers/imageController.js:99 | a key is absent exactly when no member has it; otherwise the value is that of its last binding |
| Json.ErrorProperty | server/controllers/imageController.js:99 | `.error` throws exactly on `null`. An object with an `error` member yields exactly that member's value (its last binding); an object without one, and every other value, gives `undefined` |
| Json.EscapeChar | server/classify.py:101 | an escaped character is printable ASCII; it stays itself exactly when it is printable and not a quote or backslash |
| Json.Dumps | server/classify.py:101-102 | `json.dumps` with `ensure_ascii` writes printable ASCII only, so no line break; an object is written between braces |
| ImageController.TempFileNameShape | server/controllers/imageController.js:27 | the name is 32 lower-case hex digits, which decode to the random bytes, followed by the original extension |
| ImageController.TempFilePathShape | server/controllers/imageController.js:28 | the staged path ends in a separator followed by the name, which is its last segment |
| ImageController.DistinctBytesDistinctPaths | server/controllers/imageController.js:27-28 | two requests with different random bytes stage different paths, whatever their original names |
| ImageController.StatusMatchesBody | server/controllers/imageController.js:7-129 | statuses are 200, 400 or 500. A body has a non-empty `error` string exactly when its status is not 200. A 200 body is `{prediction}` alone. 400 is only the missing file |
| ImageController.CloseReply | server/controllers/imageController.js:75-116 | the close decision is one of five replies, and it is "Image classification failed" exactly when the code is not 0 |
| ImageController.NonZeroExitIgnoresOutput | server/controllers/imageController.js:75-82 | a non-zero or null exit code gives 500 with `stderr` and the code, whatever the output and its parse |
| ImageController.BlankOutputIff | server/controllers/imageController.js:85-93 | after exit 0, "No output" exactly when the output is all white space, and the parse is then not consulted |
| ImageController.PredictionIff | server/controllers/imageController.js:95-107 | 200 with value `v` exactly when exit is 0, the output is not blank, and it parsed to a non-null `v` whose `error` is absent or falsy |
| ImageController.SelfReportedErrorIff | server/controllers/imageController.js:99-104 | "Classification error" with `e` exactly when exit is 0, the output is not blank, and it parsed to a value whose `error` is the truthy `e` |
| ImageController.InvalidResponseIff | server/controllers/imageController.js:108-115 | "Invalid response" exactly when exit is 0, the output is not blank, and it failed to parse or was `null`; the raw untrimmed output is reported |
| ImageController.UploadHandler.constructor | server/controllers/imageController.js:8 | a fresh request has no path, no file, no worker, no response, and empty output that is the concatenation of no chunks |
| ImageController.UploadHandler.Respond | server/controllers/imageController.js:61-64 | the first reply reaches the client; a later one is refused and recorded, and the client still has exactly one response |
| ImageController.UploadHandler.Cleanup | server/controllers/imageController.js:132-139 | an unlink is started and finishes without raising, and the file is gone unless the file system refused. After a cleanup that removed the file or found none, a second one changes nothing but the trace; after one the file system refused, a second one may still remove the file |
| ImageController.UploadHandler.Stage | server/controllers/imageController.js:14-41 | no file gives 400 with no path, write or spawn. A fault before naming gives 500 without cleanup. A failed write or spawn is cleaned up before the 500. Otherwise the uploaded `file.buffer` is written at the path and the worker is spawned with empty output |
| ImageController.UploadHandler.WriteAndSpawn | server/controllers/imageController.js:33-41 | once the path is set, the given bytes are written there and the worker spawned, or the fault is cleaned up before the 500 |
| ImageController.UploadHandler.WriteBuffer | server/controllers/imageController.js:33 | the file at the temporary path now holds exactly the given bytes (recorded as `Written(path, bytes)`), and nothing is sent |
| ImageController.UploadHandler.SpawnWorker | server/controllers/imageController.js:41 | a spawn that throws is cleaned up before the 500. Otherwise the worker runs with both output texts empty |
| ImageController.UploadHandler.AbandonStaging | server/controllers/imageController.js:119-127 | with a path set, the outer catch awaits the cleanup, then sends 500 "Unexpected error" |
| ImageController.UploadHandler.OnStdoutChunk | server/controllers/imageController.js:46-50 | `stdout` is the old text plus the chunk, so it stays the concatenation of the chunks in arrival order |
| ImageController.UploadHandler.OnStderrChunk | server/controllers/imageController.js:52-56 | `stderr` is the old text plus the chunk, so it stays the concatenation of the chunks in arrival order |
| ImageController.UploadHandler.OnError | server/controllers/imageController.js:58-65 | the unlink is started, not awaited, so it has not settled (it is still pending, and the file's removal is not yet recorded) when the 500 "Failed to start" is sent |
| ImageController.UploadHandler.SettleUnlink | server/controllers/imageController.js:60 | an unlink the `'error'` handler started finishes later, and a failure is only logged |
| ImageController.UploadHandler.OnClose | server/controllers/imageController.js:67-117 | the unlink is started and has finished before exactly one send. The send carries the reply `CloseReply` chooses from the code and the text accumulated so far |
| ImageController.UploadHandler.CleanupThenRespond | server/controllers/imageController.js:73 | the cleanup is awaited before the one send |
| Worker.ClassNames | server/classify.py:29-35 | a dict is read as the table of keys `"0"` to `"len-1"` and has `len(class_data)` entries; a missing key raises `KeyError` with the key's repr. A list is used as it is. A string becomes its characters, one per entry. `None`, a boolean or a number has no `len()` and raises `TypeError` |
| Worker.Table | server/classify.py:31 | the comprehension yields, for each index, the value under `str(i)`. Otherwise it stops at the first index whose key is missing, all keys before it being present |
| Worker.DenseKeysCount | server/classify.py:31 | there are exactly `n` keys `"0"` to `"n-1"` |
| Worker.DenseTableNormalises | server/classify.py:29-31 | a dict whose keys are exactly `"0"` to `"n-1"` becomes the list of length `n` whose `i`-th element is `class_data[str(i)]` |
| Worker.MissingKeyFails | server/classify.py:29-33 | a dict missing one of the keys below its length raises, so setup fails |
| Worker.ResultObjectHasNoError | server/classify.py:93-96 | the result object has no `error` member, so reading `.error` in JavaScript gives `undefined` |
| Worker.Run | server/classify.py:9-119 | every run past the imports prints exactly one JSON line and exits with 0 exactly when the image is classified. Each guard prints its own error message and exits 1: model file, labels file, setup, argv, image file, exception, index. Success prints `{animalType: class_names[pred_idx], confidence}` |
| Pipeline.OneObjectIsOneLine | server/classify.py:101-102 | a printed object is one line, and trimming the printed text gives back exactly the dumped object |
| Pipeline.CleanExitGivesPrediction | server/controllers/imageController.js:85-107 | a clean exit after printing the result object yields 200 carrying that object |
| Pipeline.ProtocolNeverSelfReportsError | server/controllers/imageController.js:99-104 | a worker keeping the one-line protocol never drives the controller into "Classification error". Exit 0 gives 200; exit 1 gives 500 "Image classification failed" |
| Pipeline.WorkerReply | server/controllers/imageController.js:67-117 | with this worker, the client gets 200 exactly when the worker classifies the image, and otherwise 500 "Image classification failed" |

## Left out

- File writes, unlinks, process spawning and the event loop are not performed. They are events in the handler's trace. Their failures are parameters: `StageFault`, and the `ioFault`/`unlinkFault` flags.
- The random bytes, the system temporary directory and the worker's exit code are parameters.
- `JSON.parse` is not modelled. Its outcome on the trimmed output is a parameter (`ParseOutcome`), because only its result matters to the decision.
- Decoding output chunks from bytes to text is left out; chunks arrive as text.
- Console logging in the controller is left out, because it has no effect on the response.
- The worker's stream writes are assumed to succeed, and its stderr lines are abstracted to `Diagnostic` values. The text the controller receives on stderr is a separate parameter.
- Torch, PIL and torchvision inference, softmax and argmax are left out. Which library step raises, the predicted index and the confidence are inputs (`Inference`). A NaN confidence is not considered.
- The label file's decoding is an input (`LabelsLoad`). A Python `int` and `float` are told apart only by the decimal exponent of `Json.Num`.
- The duplicate `classify` and `__main__` block at server/classify.py:121-155 are dead code: the first block always reaches `sys.exit`.
- The controller has no timeout and no field validation of the prediction, so the model has neither.
- MIME filtering by the upload middleware happens in code that is not part of this model. The client, the Express wiring and the React UI are not part of this model either.
- Json.Dumps: numbers are written as `<mantissa>e<exponent>`, not in Python's shortest form. Only their printability and one-line shape are used.
- ImageController.UploadHandler.Respond: when `'close'` follows `'error'`, the second `res.json` raises `ERR_HTTP_HEADERS_SENT` inside the async close callback. The model records the attempt as `SendRejected` and delivers nothing. It does not model the unhandled promise rejection that follows. `server/app.js` installs no handler for it, so under Node's default policy (since Node 15) the server process terminates.
- Pipeline.ProtocolNeverSelfReportsError: assumes `JSON.parse` of the trimmed line gives back the value the worker dumped (`parsed == Parsed(t.stdout[0])`); the JSON grammar and number syntax are not modelled, so this round trip is a hypothesis, not a proof.
- Pipeline.WorkerReply: makes the same `JSON.parse(json.dumps(v)) == v` assumption as `ProtocolNeverSelfReportsError`.
- Worker.Run: models only runs that get past the imports at server/classify.py:1-7, which sit outside the `try`. A failed import (e.g. `ModuleNotFoundError` for torch) ends the run with a traceback on stderr, exit status 1 and nothing on stdout, so the one-line protocol does not hold there. The controller still answers 500 "Image classification failed" for it, because the exit code is not 0 (`ImageController.NonZeroExitIgnoresOutput`).
- Paths.Join: assumes the temporary directory is already normalised (no `.` or `..` segments, no doubled separators); Node's `path.join` would normalise such a directory and the model does not. Only POSIX path rules are modelled; win32 separators and drive letters are not.
- Worker.Run: the stderr transcript is abstracted to a sequence of `Diagnostic` values, not the exact text printed.

=== FILE: hex.dfy ===
/**
 * Lower-case hexadecimal encoding of a byte buffer, as Node's
 * `Buffer.prototype.toString('hex')` produces it, with its decoder.
 */
module Hex {
  import opened Wrappers

  newtype byte = x: int | 0 <= x < 256

  /** A lower-case hexadecimal digit: `0`-`9` or `a`-`f`. */
  predicate IsDigit(c: char) {
    '0' <= c <= '9' || 'a' <= c <= 'f'
  }

  predicate IsLowerHex(s: string) {
    forall i :: 0 <= i < |s| ==> IsDigit(s[i])
  }

  function Digit(n: nat): (c: char)
    requires n < 16
    ensures IsDigit(c)
  {
    if n < 10 then ('0' as int + n) as char else ('a' as int + n - 10) as char
  }

  /** The value of a lower-case hex digit; `None` for any other character. */
  function DigitValue(c: char): (r: Option<nat>)
    ensures r.Some? <==> IsDigit(c)
    ensures r.Some? ==> r.value < 16 && Digit(r.value) == c
  {
    if '0' <= c <= '9' then Some(c as int - '0' as int)
    else if 'a' <= c <= 'f' then Some(c as int - 'a' as int + 10)
    else None
  }

  /** Reading back the digit of a value gives that value. */
  lemma DigitValueOfDigit(n: nat)
    requires n < 16
    ensures DigitValue(Digit(n)) == Some(n)
  {
  }

  /** Two digits per byte, high nibble first. */
  function Encode(bs: seq<byte>): (r: string)
    ensures |r| == 2 * |bs|
    ensures IsLowerHex(r)
  {
    if bs == [] then ""
    else [Digit(bs[0] as int / 16), Digit(bs[0] as int % 16)] + Encode(bs[1..])
  }

  /** The inverse of `Encode`: pairs of lower-case digits back to bytes. */
  function Decode(s: string): (r: Option<seq<byte>>)
    decreases |s|
  {
    if s == "" then Some([])
    else if |s| == 1 then None
    else
      var hi, lo, rest := DigitValue(s[0]), DigitValue(s[1]), Decode(s[2..]);
      if hi.None? || lo.None? || rest.None? then None
      else Some([(hi.value * 16 + lo.value) as byte] + rest.value)
  }

  /** Byte `i` of the input sits at characters `2i` and `2i+1` of the encoding. */
  lemma {:induction false} EncodeAt(bs: seq<byte>, i: nat)
    requires i < |bs|
    ensures Encode(bs)[2 * i] == Digit(bs[i] as int / 16)
    ensures Encode(bs)[2 * i + 1] == Digit(bs[i] as int % 16)
  {
    var head := [Digit(bs[0] as int / 16), Digit(bs[0] as int % 16)];
    assert Encode(bs) == head + Encode(bs[1..]);
    if i > 0 {
      EncodeAt(bs[1..], i - 1);
      assert Encode(bs)[2 * i] == Encode(bs[1..])[2 * (i - 1)];
      assert Encode(bs)[2 * i + 1] == Encode(bs[1..])[2 * (i - 1) + 1];
    }
  }

  /** One step of `Decode`: two valid digits in front of a decodable rest. */
  lemma DecodeCons(s: string, hi: nat, lo: nat, rest: seq<byte>)
    requires |s| >= 2 && hi < 16 && lo < 16
    requires DigitValue(s[0]) == Some(hi) && DigitValue(s[1]) == Some(lo)
    requires Decode(s[2..]) == Some(rest)
    ensures Decode(s) == Some([(hi * 16 + lo) as byte] + rest)
  {
  }

  /** Splitting a byte into its two nibbles and joining them again is the identity. */
  lemma NibblesJoin(b: byte)
    ensures ((b as int / 16) * 16 + b as int % 16) as byte == b
  {
  }

  /** Decoding an encoding gives the bytes back. */
  lemma {:induction false} DecodeEncode(bs: seq<byte>)
    ensures Decode(Encode(bs)) == Some(bs)
  {
    if bs != [] {
      var b := bs[0] as int;
      var e := Encode(bs);
      assert e == [Digit(b / 16), Digit(b % 16)] + Encode(bs[1..]);
      assert e[2..] == Encode(bs[1..]);
      DecodeEncode(bs[1..]);
      DigitValueOfDigit(b / 16);
      DigitValueOfDigit(b % 16);
      DecodeCons(e, b / 16, b % 16, bs[1..]);
      NibblesJoin(bs[0]);
      assert [bs[0]] + bs[1..] == bs;
    }
  }

  /** Distinct buffers never share an encoding. */
  lemma EncodeInjective(a: seq<byte>, b: seq<byte>)
    requires Encode(a) == Encode(b)
    ensures a == b
  {
    DecodeEncode(a);
    DecodeEncode(b);
  }
}

=== FILE: image_controller.dfy ===
/**
 * The upload handler of `server/controllers/imageController.js`: it stages
 * the uploaded image as a uniquely named temporary file, runs the
 * classification worker on it, collects the worker's output, and answers the
 * request with exactly one JSON response.
 *
 * The decision taken when the worker's streams close is the pure function
 * `CloseReply`; the request's life (temporary path, file on disk, output
 * buffers, the response) is the class `UploadHandler`.
 */
module ImageController {
  import opened Wrappers
  import Hex
  import Text
  import Paths
  import Json

  /* ---------------- Naming the temporary file ---------------- */

  /** The name of the staged file: the hex text of the random bytes, then the original extension. */
  function TempFileName(random: seq<Hex.byte>, originalName: string): string {
    Hex.Encode(random) + Paths.Extname(originalName)
  }

  /**
   * Sixteen random bytes give a name made of exactly 32 lower-case hex
   * digits, which decode back to those bytes, followed by the extension of
   * the uploaded file's original name.
   */
  lemma TempFileNameShape(random: seq<Hex.byte>, originalName: string)
    requires |random| == 16
    ensures var name := TempFileName(random, originalName);
      |name| == 32 + |Paths.Extname(originalName)|
      && Hex.IsLowerHex(name[..32])
      && Hex.Decode(name[..32]) == Some(random)
      && name[32..] == Paths.Extname(originalName)
  {
    var name := TempFileName(random, originalName);
    assert name[..32] == Hex.Encode(random);
    Hex.DecodeEncode(random);
  }

  /** The full path of the staged file: the name under the system's temporary directory. */
  function TempFilePath(tmpDir: string, random: seq<Hex.byte>, originalName: string): string
    requires tmpDir != ""
  {
    Paths.Join(tmpDir, TempFileName(random, originalName))
  }

  /** The staged file's path ends in a separator followed by its name, which is its last segment. */
  lemma TempFilePathShape(tmpDir: string, random: seq<Hex.byte>, originalName: string)
    requires tmpDir != "" && |random| == 16
    ensures var name, path := TempFileName(random, originalName), TempFilePath(tmpDir, random, originalName);
      Paths.LastSegment(path) == name && path[|path| - |name| - 1] == '/'
  {
    var hex := Hex.Encode(random);
    assert Paths.NoSlash(hex);
    Paths.ExtnameNoSlash(originalName);
    Paths.NoSlashConcat(hex, Paths.Extname(originalName));
    Paths.JoinLastSegment(tmpDir, TempFileName(random, originalName));
  }

  /**
   * Two requests that drew different random bytes stage different files,
   * whatever their original names: the namespace needs no coordination.
   */
  lemma DistinctBytesDistinctPaths(tmpDir: string, r1: seq<Hex.byte>, n1: string,
                                   r2: seq<Hex.byte>, n2: string)
    requires tmpDir != "" && |r1| == 16 && |r2| == 16
    requires r1 != r2
    ensures TempFilePath(tmpDir, r1, n1) != TempFilePath(tmpDir, r2, n2)
  {
    TempFilePathShape(tmpDir, r1, n1);
    TempFilePathShape(tmpDir, r2, n2);
    TempFileNameShape(r1, n1);
    TempFileNameShape(r2, n2);
  }

  /* ---------------- The responses ---------------- */

  /** How the worker ended, as `'close'` reports it: its exit code, or `null` after a signal. */
  type ExitCode = Option<int>

  /** The outcome of `JSON.parse(trimmedOutput)`: a value, or the SyntaxError's message. */
  datatype ParseOutcome = SyntaxError(message: string) | Parsed(value: Json.Value)

  /** The message of the TypeError raised by reading `.error` of `null`. */
  const NullAccessMessage: string := "Cannot read properties of null (reading 'error')"

  /** The eight responses the handler can send; the field names are those of the JSON body. */
  datatype Reply =
    | NoImage
    | StartFailed(details: string)
    | ClassificationFailed(stderr: string, exitCode: ExitCode)
    | NoOutput(stderr: string)
    | ClassificationError(reported: Json.Value)
    | Prediction(prediction: Json.Value)
    | InvalidResponse(rawOutput: string, parseError: string)
    | Unexpected(details: string)
  {
    /** The HTTP status code. */
    function Status(): int {
      match this
      case NoImage => 400
      case Prediction(_) => 200
      case _ => 500
    }

    /** The JSON body passed to `res.json`. */
    function Body(): Json.Value {
      match this
      case NoImage =>
        Json.Obj([Json.Member("error", Json.Str("No image file uploaded"))])
      case StartFailed(d) =>
        Json.Obj([Json.Member("error", Json.Str("Failed to start Python classification process")),
                  Json.Member("details", Json.Str(d))])
      case ClassificationFailed(e, code) =>
        Json.Obj([Json.Member("error", Json.Str("Image classification failed")),
                  Json.Member("stderr", Json.Str(e)),
                  Json.Member("exitCode", match code case None => Json.Null case Some(c) => Json.Num(c, 0))])
      case NoOutput(e) =>
        Json.Obj([Json.Member("error", Json.Str("No output from Python script")),
                  Json.Member("stderr", Json.Str(e))])
      case ClassificationError(d) =>
        Json.Obj([Json.Member("error", Json.Str("Classification error")),
                  Json.Member("details", d)])
      case Prediction(p) =>
        Json.Obj([Json.Member("prediction", p)])
      case InvalidResponse(raw, msg) =>
        Json.Obj([Json.Member("error", Json.Str("Invalid response from Python script")),
                  Json.Member("rawOutput", Json.Str(raw)),
                  Json.Member("parseError", Json.Str(msg))])
      case Unexpected(d) =>
        Json.Obj([Json.Member("error", Json.Str("Unexpected error during image classification")),
                  Json.Member("details", Json.Str(d))])
    }
  }

  /**
   * Every response but the prediction is an error response: its body carries
   * a non-empty `error` string exactly when its status is not 200, and a 200
   * body is `{prediction}` alone.
   */
  lemma StatusMatchesBody(r: Reply)
    ensures r.Status() in {200, 400, 500}
    ensures var e := Json.Lookup(r.Body().members, "error");
      r.Status() != 200 <==> e.Some? && e.value.Str? && e.value.s != ""
    ensures r.Status() == 200 ==> r.Body() == Json.Obj([Json.Member("prediction", r.prediction)])
    ensures r.Status() == 400 <==> r.NoImage?
  {
    match r
    case Prediction(_) =>
    case _ => ErrorKeyFirst(r.Body().members);
  }

  /** In a body whose first key is `error` and whose other keys are not, `error` is looked up at the front. */
  lemma ErrorKeyFirst(ms: seq<Json.Member>)
    requires |ms| >= 1 && ms[0].key == "error"
    requires forall i :: 1 <= i < |ms| ==> ms[i].key != "error"
    ensures Json.Lookup(ms, "error") == Some(ms[0].value)
  {
    assert ms[0] == Json.Member("error", ms[0].value);
  }

  /* ---------------- The 'close' handler's decision ---------------- */

  /**
   * The response chosen when the worker's streams close (lines 75-116), from
   * the exit code, the accumulated output and error text, and the outcome of
   * parsing the trimmed output. The parse outcome stands for the call to
   * `JSON.parse`, which only happens on the branch that reaches it.
   */
  function CloseReply(code: ExitCode, stdout: string, stderr: string, parsed: ParseOutcome): (r: Reply)
    ensures r.ClassificationFailed? || r.NoOutput? || r.ClassificationError?
         || r.Prediction? || r.InvalidResponse?
    ensures r.ClassificationFailed? <==> code != Some(0)
  {
    if code != Some(0) then ClassificationFailed(stderr, code)
    else if Text.Trim(stdout) == "" then NoOutput(stderr)
    else
      match parsed
      case SyntaxError(msg) => InvalidResponse(stdout, msg)
      case Parsed(v) =>
        match Json.ErrorProperty(v)
        case Throws => InvalidResponse(stdout, NullAccessMessage)
        case Undefined => Prediction(v)
        case Found(e) => if Json.Truthy(e) then ClassificationError(e) else Prediction(v)
  }

  /**
   * A non-zero exit code, or `null` after a signal, gives 500 with the
   * error text and the code; the output is neither parsed nor reported.
   */
  lemma NonZeroExitIgnoresOutput(code: ExitCode, stdout: string, stderr: string,
                                  p: ParseOutcome, stdout': string, p': ParseOutcome)
    requires code != Some(0)
    ensures CloseReply(code, stdout, stderr, p) == ClassificationFailed(stderr, code)
    ensures CloseReply(code, stdout, stderr, p) == CloseReply(code, stdout', stderr, p')
    ensures CloseReply(code, stdout, stderr, p).Status() == 500
  {
  }

  /**
   * After a clean exit the answer is 'No output' exactly when the output is
   * empty or white space only, and the parse outcome is then never consulted.
   */
  lemma BlankOutputIff(stdout: string, stderr: string, p: ParseOutcome, p': ParseOutcome)
    ensures CloseReply(Some(0), stdout, stderr, p).NoOutput? <==> Text.AllSpace(stdout)
    ensures Text.AllSpace(stdout) ==>
      CloseReply(Some(0), stdout, stderr, p) == NoOutput(stderr) == CloseReply(Some(0), stdout, stderr, p')
  {
    Text.TrimEmptyIff(stdout);
  }

  /**
   * The answer is 200 exactly when the worker exited with 0, printed
   * something, and that parsed to a value other than `null` whose `error`
   * is absent or falsy; the parsed value is passed through unchanged.
   */
  lemma PredictionIff(code: ExitCode, stdout: string, stderr: string,
                                         parsed: ParseOutcome, v: Json.Value)
    ensures CloseReply(code, stdout, stderr, parsed) == Prediction(v) <==>
      code == Some(0) && !Text.AllSpace(stdout) && parsed == Parsed(v) && !v.Null?
      && !(Json.ErrorProperty(v).Found? && Json.Truthy(Json.ErrorProperty(v).value))
  {
    Text.TrimEmptyIff(stdout);
  }

  /**
   * A worker that exits cleanly but reports a truthy `error` gets 500
   * 'Classification error' carrying that error value, and only then.
   */
  lemma SelfReportedErrorIff(code: ExitCode, stdout: string, stderr: string,
                                                parsed: ParseOutcome, e: Json.Value)
    ensures CloseReply(code, stdout, stderr, parsed) == ClassificationError(e) <==>
      code == Some(0) && !Text.AllSpace(stdout) && parsed.Parsed?
      && Json.ErrorProperty(parsed.value) == Json.Found(e) && Json.Truthy(e)
  {
    Text.TrimEmptyIff(stdout);
  }

  /**
   * Output that does not parse, or that parses to `null` (whose `.error`
   * throws), gets 500 'Invalid response' carrying the raw, untrimmed output.
   */
  lemma InvalidResponseIff(code: ExitCode, stdout: string, stderr: string,
                                              parsed: ParseOutcome)
    ensures CloseReply(code, stdout, stderr, parsed).InvalidResponse? <==>
      code == Some(0) && !Text.AllSpace(stdout) && (parsed.SyntaxError? || parsed == Parsed(Json.Null))
    ensures CloseReply(code, stdout, stderr, parsed).InvalidResponse? ==>
      CloseReply(code, stdout, stderr, parsed).rawOutput == stdout
  {
    Text.TrimEmptyIff(stdout);
  }

  /* ---------------- The life of one request ---------------- */

  /** `req.file` as the upload middleware hands it over; the MIME type is only logged. */
  datatype UploadedFile = UploadedFile(originalName: string, mimeType: string, buffer: seq<Hex.byte>)

  /** Where the staging code (lines 11-41) raises, if it does, into the outer `catch`. */
  datatype StageFault =
    | NoFault
      /** Raised once a file is present but before the temporary path is assigned (lines 20-28: logging, random bytes, extension). */
    | FailsBeforeNaming(message: string)
      /** `fs.writeFile` rejected; `partial` when some bytes reached the disk before it did. */
    | WriteFails(message: string, partial: bool)
      /** `spawn` threw synchronously, after the file was written. */
    | SpawnThrows(message: string)

  /** What the handler does to the world, in order. */
  datatype Event =
      /** The file at `path` now holds exactly `bytes`. */
    | Written(path: string, bytes: seq<Hex.byte>)
    | Spawned(path: string)
    | UnlinkStarted(path: string)
    | Unlinked(path: string)
    | UnlinkFailed(path: string)
    | Sent(reply: Reply)
      /** A second `res.json` after headers were sent: Express refuses it and nothing reaches the client. */
    | SendRejected(reply: Reply)

  /** The replies that actually reached the client, in order. */
  function Delivered(trace: seq<Event>): seq<Reply> {
    if trace == [] then []
    else Delivered(trace[..|trace| - 1])
         + (if trace[|trace| - 1].Sent? then [trace[|trace| - 1].reply] else [])
  }

  /** An event other than `Sent` delivers nothing. */
  lemma NothingDelivered(t: seq<Event>, e: Event)
    requires !e.Sent?
    ensures Delivered(t + [e]) == Delivered(t)
  {
    assert (t + [e])[..|t|] == t;
  }

  /** A `Sent` event delivers its reply after the earlier ones. */
  lemma ReplyDelivered(t: seq<Event>, r: Reply)
    ensures Delivered(t + [Sent(r)]) == Delivered(t) + [r]
  {
    assert (t + [Sent(r)])[..|t|] == t;
  }

  /** An unlink started and finished delivers nothing. */
  lemma UnlinkDeliversNothing(t: seq<Event>, p: string, done: Event)
    requires !done.Sent?
    ensures Delivered(t + [UnlinkStarted(p), done]) == Delivered(t)
  {
    var u := t + [UnlinkStarted(p), done];
    assert u[..|u| - 1] == t + [UnlinkStarted(p)];
    NothingDelivered(t, UnlinkStarted(p));
  }

  /** The accumulated text of a sequence of output chunks. */
  function Concat(chunks: seq<string>): string {
    if chunks == [] then "" else Concat(chunks[..|chunks| - 1]) + chunks[|chunks| - 1]
  }

  /**
   * One invocation of `handleUpload`: the variables its closures share
   * (`tempFilePath`, `stdout`, `stderr`), whether the temporary file exists,
   * whether the worker was spawned and has closed, the response that reached
   * the client, and the unlinks started but not finished.
   */
  class UploadHandler {
    var tempFilePath: Option<string>
    var fileOnDisk: bool
    var spawned: bool
    var closed: bool
    var stdout: string
    var stderr: string
    var response: Option<Reply>
    var pendingUnlinks: nat
    /** The chunks received on each stream, in arrival order. */
    ghost var stdoutChunks: seq<string>
    ghost var stderrChunks: seq<string>
    /** Everything the handler did, in order. */
    ghost var trace: seq<Event>

    /**
     * The handler's invariant: a path exists whenever a file, a worker or an
     * unlink refers to it, no output arrives before the worker is spawned,
     * and the client has received exactly the recorded response.
     */
    ghost predicate Valid()
      reads this
    {
      (fileOnDisk || spawned || pendingUnlinks > 0 ==> tempFilePath.Some?)
      && (!spawned ==> !closed && stdoutChunks == [] && stderrChunks == [])
      && Delivered(trace) == (if response.Some? then [response.value] else [])
    }

    /**
     * The accumulated texts are the chunks received so far, in order. Only
     * the data handlers change them; every other method leaves both the
     * texts and the chunks as they were.
     */
    ghost predicate Accumulated()
      reads this
    {
      stdout == Concat(stdoutChunks) && stderr == Concat(stderrChunks)
    }

    /** A request that has not been looked at yet. */
    ghost predicate Idle()
      reads this
    {
      tempFilePath.None? && !fileOnDisk && !spawned && !closed && response.None?
      && pendingUnlinks == 0 && stdoutChunks == [] && stderrChunks == [] && trace == []
    }

    constructor ()
      ensures Valid() && Idle() && Accumulated()
    {
      tempFilePath, fileOnDisk, spawned, closed := None, false, false, false;
      stdout, stderr, response, pendingUnlinks := "", "", None, 0;
      stdoutChunks, stderrChunks, trace := [], [], [];
    }

    /** The event `res.status(..).json(reply)` leaves: refused when a response already went out. */
    static function SendEvent(sentBefore: Option<Reply>, reply: Reply): Event {
      if sentBefore.None? then Sent(reply) else SendRejected(reply)
    }

    /** `res.status(..).json(reply)`: the first reply reaches the client, later ones are refused. */
    method Respond(reply: Reply)
      requires Valid()
      modifies this
      ensures Valid()
      ensures response == if old(response).None? then Some(reply) else old(response)
      ensures trace == old(trace) + [SendEvent(old(response), reply)]
      ensures tempFilePath == old(tempFilePath) && fileOnDisk == old(fileOnDisk)
      ensures spawned == old(spawned) && closed == old(closed) && pendingUnlinks == old(pendingUnlinks)
      ensures stdout == old(stdout) && stderr == old(stderr)
      ensures stdoutChunks == old(stdoutChunks) && stderrChunks == old(stderrChunks)
    {
      if response.None? {
        ReplyDelivered(trace, reply);
        trace := trace + [Sent(reply)];
        response := Some(reply);
        assert Delivered(trace) == [reply];
      } else {
        NothingDelivered(trace, SendRejected(reply));
        trace := trace + [SendRejected(reply)];
        assert Delivered(trace) == [response.value];
      }
    }

    /**
     * `await cleanupTempFile(tempFilePath)` (lines 132-139): the unlink is
     * attempted and finishes; a failure (the file is already gone, or the
     * file system refuses, `ioFault`) is only logged, never raised. After a
     * cleanup that removed the file or found none, a second one changes
     * nothing but the trace; after one the file system refused, a second one
     * may still remove the file.
     */
    method Cleanup(ioFault: bool)
      requires Valid() && tempFilePath.Some?
      modifies this
      ensures Valid()
      ensures fileOnDisk == (old(fileOnDisk) && ioFault)
      ensures var p := old(tempFilePath).value;
        trace == old(trace) + [UnlinkStarted(p), if old(fileOnDisk) && !ioFault then Unlinked(p) else UnlinkFailed(p)]
      ensures tempFilePath == old(tempFilePath) && response == old(response)
      ensures spawned == old(spawned) && closed == old(closed) && pendingUnlinks == old(pendingUnlinks)
      ensures stdout == old(stdout) && stderr == old(stderr)
      ensures stdoutChunks == old(stdoutChunks) && stderrChunks == old(stderrChunks)
    {
      var p := tempFilePath.value;
      var done := if fileOnDisk && !ioFault then Unlinked(p) else UnlinkFailed(p);
      UnlinkDeliversNothing(trace, p, done);
      trace := trace + [UnlinkStarted(p), done];
      fileOnDisk := fileOnDisk && ioFault;
    }

    /**
     * Lines 14-41: a request without a file is answered 400 before any name
     * is drawn; otherwise the name is built from the sixteen random bytes and
     * the original extension, the buffer is written there and the worker is
     * spawned on that path. A fault raised before the name exists is answered
     * 500 without cleanup; one raised by the write or the spawn is cleaned up
     * first.
     */
    method Stage(file: Option<UploadedFile>, random: seq<Hex.byte>, tmpDir: string,
                 fault: StageFault, unlinkFault: bool)
      requires Valid() && Idle()
      requires |random| == 16 && tmpDir != ""
      modifies this
      ensures Valid() && (spawned ==> Accumulated())
      ensures stdoutChunks == [] && stderrChunks == [] && !closed && pendingUnlinks == 0
      ensures file.None? ==>
        tempFilePath.None? && !fileOnDisk && !spawned
        && response == Some(NoImage) && trace == [Sent(NoImage)]
      ensures file.Some? && fault.FailsBeforeNaming? ==>
        tempFilePath.None? && !fileOnDisk && !spawned
        && response == Some(Unexpected(fault.message)) && trace == [Sent(Unexpected(fault.message))]
      ensures file.Some? && fault.WriteFails? ==>
        var p := TempFilePath(tmpDir, random, file.value.originalName);
        tempFilePath == Some(p) && !spawned && fileOnDisk == (fault.partial && unlinkFault)
        && response == Some(Unexpected(fault.message))
        && trace == [UnlinkStarted(p), if fault.partial && !unlinkFault then Unlinked(p) else UnlinkFailed(p),
                     Sent(Unexpected(fault.message))]
      ensures file.Some? && fault.SpawnThrows? ==>
        var p := TempFilePath(tmpDir, random, file.value.originalName);
        tempFilePath == Some(p) && !spawned && fileOnDisk == unlinkFault
        && response == Some(Unexpected(fault.message))
        && trace == [Written(p, file.value.buffer), UnlinkStarted(p), if unlinkFault then UnlinkFailed(p) else Unlinked(p),
                     Sent(Unexpected(fault.message))]
      ensures file.Some? && fault.NoFault? ==>
        var p := TempFilePath(tmpDir, random, file.value.originalName);
        tempFilePath == Some(p) && fileOnDisk && spawned && response.None?
        && stdout == "" && stderr == "" && trace == [Written(p, file.value.buffer), Spawned(p)]
    {
      if file.None? {
        response, trace := Some(NoImage), [Sent(NoImage)];
        return;
      }
      if fault.FailsBeforeNaming? {
        response, trace := Some(Unexpected(fault.message)), [Sent(Unexpected(fault.message))];
        return;
      }
      tempFilePath := Some(TempFilePath(tmpDir, random, file.value.originalName));
      WriteAndSpawn(file.value.buffer, fault, unlinkFault);
    }

    /**
     * Lines 33-41 once the path is set: the buffer is written and the worker
     * spawned on the path, or the fault raised on the way is cleaned up after
     * and answered 500.
     */
    method WriteAndSpawn(bytes: seq<Hex.byte>, fault: StageFault, unlinkFault: bool)
      requires Valid() && tempFilePath.Some? && !fault.FailsBeforeNaming?
      requires !fileOnDisk && !spawned && !closed && response.None? && pendingUnlinks == 0
      requires stdoutChunks == [] && stderrChunks == [] && trace == []
      modifies this
      ensures Valid()
      ensures stdoutChunks == [] && stderrChunks == [] && !closed && pendingUnlinks == 0
      ensures tempFilePath == old(tempFilePath)
      ensures fault.WriteFails? ==>
        var p := tempFilePath.value;
        !spawned && fileOnDisk == (fault.partial && unlinkFault)
        && response == Some(Unexpected(fault.message))
        && trace == [UnlinkStarted(p), if fault.partial && !unlinkFault then Unlinked(p) else UnlinkFailed(p),
                     Sent(Unexpected(fault.message))]
      ensures fault.SpawnThrows? ==>
        var p := tempFilePath.value;
        !spawned && fileOnDisk == unlinkFault
        && response == Some(Unexpected(fault.message))
        && trace == [Written(p, bytes), UnlinkStarted(p), if unlinkFault then UnlinkFailed(p) else Unlinked(p),
                     Sent(Unexpected(fault.message))]
      ensures fault.NoFault? ==>
        var p := tempFilePath.value;
        fileOnDisk && spawned && response.None?
        && stdout == "" && stderr == "" && trace == [Written(p, bytes), Spawned(p)]
    {
      if fault.WriteFails? {
        fileOnDisk := fault.partial;
        AbandonStaging(fault.message, unlinkFault);
        return;
      }
      WriteBuffer(bytes);
      SpawnWorker(fault, unlinkFault);
    }

    /** Line 33: `fs.writeFile(tempFilePath, req.file.buffer)` succeeds, so the uploaded bytes are at the path. */
    method WriteBuffer(bytes: seq<Hex.byte>)
      requires Valid() && tempFilePath.Some? && !spawned
      modifies this
      ensures Valid()
      ensures fileOnDisk && trace == old(trace) + [Written(old(tempFilePath).value, bytes)]
      ensures tempFilePath == old(tempFilePath) && response == old(response)
      ensures spawned == old(spawned) && closed == old(closed) && pendingUnlinks == old(pendingUnlinks)
      ensures stdout == old(stdout) && stderr == old(stderr)
      ensures stdoutChunks == old(stdoutChunks) && stderrChunks == old(stderrChunks)
    {
      fileOnDisk := true;
      NothingDelivered(trace, Written(tempFilePath.value, bytes));
      trace := trace + [Written(tempFilePath.value, bytes)];
    }

    /**
     * Lines 36-41 once the file is written: `spawn` either throws, and the
     * file is cleaned up before the 500 response, or starts the worker with
     * both output texts empty.
     */
    method SpawnWorker(fault: StageFault, unlinkFault: bool)
      requires Valid() && tempFilePath.Some? && (fault.SpawnThrows? || fault.NoFault?)
      requires fileOnDisk && !spawned && response.None?
      modifies this
      ensures Valid()
      ensures tempFilePath == old(tempFilePath) && !closed && pendingUnlinks == old(pendingUnlinks)
      ensures stdoutChunks == old(stdoutChunks) && stderrChunks == old(stderrChunks)
      ensures fault.SpawnThrows? ==>
        var p := tempFilePath.value;
        !spawned && fileOnDisk == unlinkFault
        && response == Some(Unexpected(fault.message))
        && trace == old(trace) + [UnlinkStarted(p), if unlinkFault then UnlinkFailed(p) else Unlinked(p),
                                  Sent(Unexpected(fault.message))]
      ensures fault.NoFault? ==>
        fileOnDisk && spawned && response.None?
        && stdout == "" && stderr == "" && trace == old(trace) + [Spawned(tempFilePath.value)]
    {
      if fault.SpawnThrows? {
        AbandonStaging(fault.message, unlinkFault);
        return;
      }
      spawned := true;
      stdout, stderr := "", "";
      NothingDelivered(trace, Spawned(tempFilePath.value));
      trace := trace + [Spawned(tempFilePath.value)];
    }

    /**
     * Lines 119-127 after a failed write or spawn: `tempFilePath` is already set, so
     * the file is cleaned up (awaited) before the 500 response goes out.
     */
    method AbandonStaging(message: string, unlinkFault: bool)
      requires Valid() && tempFilePath.Some? && !spawned && response.None?
      modifies this
      ensures Valid()
      ensures fileOnDisk == (old(fileOnDisk) && unlinkFault) && response == Some(Unexpected(message))
      ensures var p := old(tempFilePath).value;
        trace == old(trace) + [UnlinkStarted(p), if old(fileOnDisk) && !unlinkFault then Unlinked(p) else UnlinkFailed(p),
                  Sent(Unexpected(message))]
      ensures tempFilePath == old(tempFilePath) && !spawned && !closed && pendingUnlinks == old(pendingUnlinks)
      ensures stdoutChunks == old(stdoutChunks) && stderrChunks == old(stderrChunks)
    {
      Cleanup(unlinkFault);
      Respond(Unexpected(message));
    }

    /** Lines 46-50: a chunk of the worker's standard output is appended to `stdout`. */
    method OnStdoutChunk(chunk: string)
      requires Valid() && Accumulated() && spawned && !closed
      modifies this`stdout, this`stdoutChunks
      ensures Valid() && Accumulated()
      ensures stdoutChunks == old(stdoutChunks) + [chunk]
      ensures stdout == old(stdout) + chunk
    {
      stdout := stdout + chunk;
      stdoutChunks := stdoutChunks + [chunk];
      assert stdoutChunks[..|stdoutChunks| - 1] == old(stdoutChunks);
    }

    /** Lines 52-56: a chunk of the worker's standard error is appended to `stderr`. */
    method OnStderrChunk(chunk: string)
      requires Valid() && Accumulated() && spawned && !closed
      modifies this`stderr, this`stderrChunks
      ensures Valid() && Accumulated()
      ensures stderrChunks == old(stderrChunks) + [chunk]
      ensures stderr == old(stderr) + chunk
    {
      stderr := stderr + chunk;
      stderrChunks := stderrChunks + [chunk];
      assert stderrChunks[..|stderrChunks| - 1] == old(stderrChunks);
    }

    /**
     * Lines 58-65, the `'error'` event: cleanup is started but not awaited,
     * so the 500 response goes out before the unlink has settled. The model
     * records the file's removal when the unlink settles (`SettleUnlink`);
     * the system call itself may already have run by then.
     */
    method OnError(message: string)
      requires Valid() && spawned
      modifies this
      ensures Valid()
      ensures pendingUnlinks == old(pendingUnlinks) + 1 && fileOnDisk == old(fileOnDisk)
      ensures response == if old(response).None? then Some(StartFailed(message)) else old(response)
      ensures trace == old(trace) + [UnlinkStarted(old(tempFilePath).value), SendEvent(old(response), StartFailed(message))]
      ensures tempFilePath == old(tempFilePath) && spawned && closed == old(closed)
      ensures stdout == old(stdout) && stderr == old(stderr)
      ensures stdoutChunks == old(stdoutChunks) && stderrChunks == old(stderrChunks)
    {
      pendingUnlinks := pendingUnlinks + 1;
      NothingDelivered(trace, UnlinkStarted(tempFilePath.value));
      trace := trace + [UnlinkStarted(tempFilePath.value)];
      Respond(StartFailed(message));
    }

    /** An unlink started by the `'error'` handler finishes; a failure is only logged. */
    method SettleUnlink(ioFault: bool)
      requires Valid() && pendingUnlinks > 0
      modifies this
      ensures Valid()
      ensures pendingUnlinks == old(pendingUnlinks) - 1
      ensures fileOnDisk == (old(fileOnDisk) && ioFault)
      ensures var p := old(tempFilePath).value;
        trace == old(trace) + [if old(fileOnDisk) && !ioFault then Unlinked(p) else UnlinkFailed(p)]
      ensures tempFilePath == old(tempFilePath) && response == old(response)
      ensures spawned == old(spawned) && closed == old(closed)
      ensures stdout == old(stdout) && stderr == old(stderr)
      ensures stdoutChunks == old(stdoutChunks) && stderrChunks == old(stderrChunks)
    {
      var p := tempFilePath.value;
      var done := if fileOnDisk && !ioFault then Unlinked(p) else UnlinkFailed(p);
      NothingDelivered(trace, done);
      trace := trace + [done];
      fileOnDisk := fileOnDisk && ioFault;
      pendingUnlinks := pendingUnlinks - 1;
    }

    /**
     * Lines 67-117, the `'close'` event: the temporary file is removed and
     * that removal has finished before the response, which `CloseReply`
     * chooses from the exit code and the text accumulated so far, is sent.
     * `parsed` stands for what `JSON.parse` makes of the trimmed output.
     */
    method OnClose(code: ExitCode, parsed: ParseOutcome, unlinkFault: bool)
      requires Valid() && spawned && !closed
      modifies this
      ensures Valid()
      ensures closed && fileOnDisk == (old(fileOnDisk) && unlinkFault)
      ensures var p := old(tempFilePath).value;
        var reply := CloseReply(code, old(stdout), old(stderr), parsed);
        trace == old(trace) + [UnlinkStarted(p), if old(fileOnDisk) && !unlinkFault then Unlinked(p) else UnlinkFailed(p),
                               SendEvent(old(response), reply)]
      ensures response == if old(response).None? then Some(CloseReply(code, old(stdout), old(stderr), parsed)) else old(response)
      ensures tempFilePath == old(tempFilePath) && spawned && pendingUnlinks == old(pendingUnlinks)
      ensures stdout == old(stdout) && stderr == old(stderr)
      ensures stdoutChunks == old(stdoutChunks) && stderrChunks == old(stderrChunks)
    {
      var reply := CloseReply(code, stdout, stderr, parsed);
      closed := true;
      CleanupThenRespond(reply, unlinkFault);
    }

    /** `await cleanupTempFile(tempFilePath)` and then `res.status(..).json(reply)`, in that order. */
    method CleanupThenRespond(reply: Reply, unlinkFault: bool)
      requires Valid() && tempFilePath.Some?
      modifies this
      ensures Valid()
      ensures fileOnDisk == (old(fileOnDisk) && unlinkFault)
      ensures var p := old(tempFilePath).value;
        trace == old(trace) + [UnlinkStarted(p), if old(fileOnDisk) && !unlinkFault then Unlinked(p) else UnlinkFailed(p),
                               SendEvent(old(response), reply)]
      ensures response == if old(response).None? then Some(reply) else old(response)
      ensures tempFilePath == old(tempFilePath) && spawned == old(spawned) && closed == old(closed)
      ensures pendingUnlinks == old(pendingUnlinks)
      ensures stdout == old(stdout) && stderr == old(stderr)
      ensures stdoutChunks == old(stdoutChunks) && stderrChunks == old(stderrChunks)
    {
      ghost var t0, p := trace, tempFilePath.value;
      ghost var done := if fileOnDisk && !unlinkFault then Unlinked(p) else UnlinkFailed(p);
      ghost var sent := SendEvent(response, reply);
      Cleanup(unlinkFault);
      Respond(reply);
      assert t0 + [UnlinkStarted(p), done] + [sent] == t0 + [UnlinkStarted(p), done, sent];
    }
  }
}

=== FILE: json.dfy ===
/**
 * JSON values as they cross the boundary between the worker and the
 * controller: how Python's `json.dumps` writes them (default separators,
 * `ensure_ascii`), and the two things the controller asks of a value that
 * `JSON.parse` produced, its `error` property and JavaScript truthiness.
 */
module Json {
  import opened Wrappers
  import Hex
  import Text

  /** A JSON value; a number is kept as a decimal `mantissa × 10^exponent`. */
  datatype Value =
    | Null
    | Bool(b: bool)
    | Num(mantissa: int, exponent: int)
    | Str(s: string)
    | Arr(items: seq<Value>)
    | Obj(members: seq<Member>)

  /** One `key: value` pair of an object, in the order written. */
  datatype Member = Member(key: string, value: Value)

  /** An object with the single member `{"error": msg}`, the worker's failure report. */
  function ErrorObject(msg: string): Value {
    Obj([Member("error", Str(msg))])
  }

  /** JavaScript truthiness: `null`, `false`, `0` and `""` are falsy, all else truthy. */
  predicate Truthy(v: Value) {
    match v
    case Null => false
    case Bool(b) => b
    case Num(m, _) => m != 0
    case Str(s) => s != ""
    case Arr(_) => true
    case Obj(_) => true
  }

  /** The position of the last member among the first `n` whose key is `key`, if any. */
  function LastKeyBefore(members: seq<Member>, key: string, n: nat): (r: Option<nat>)
    requires n <= |members|
    ensures r.None? <==> forall i :: 0 <= i < n ==> members[i].key != key
    ensures r.Some? ==>
      r.value < n && members[r.value].key == key && forall j :: r.value < j < n ==> members[j].key != key
  {
    if n == 0 then None
    else if members[n - 1].key == key then Some(n - 1)
    else LastKeyBefore(members, key, n - 1)
  }

  /** The value bound to `key`; when a key repeats, the last binding wins, as in `JSON.parse`. */
  function Lookup(members: seq<Member>, key: string): (r: Option<Value>)
    ensures r.None? <==> forall i :: 0 <= i < |members| ==> members[i].key != key
    ensures r.Some? ==>
      exists i :: 0 <= i < |members| && members[i] == Member(key, r.value)
                  && forall j :: i < j < |members| ==> members[j].key != key
  {
    match LastKeyBefore(members, key, |members|)
    case None => None
    case Some(i) =>
      assert members[i] == Member(key, members[i].value);
      Some(members[i].value)
  }

  /** What evaluating `v.error` does in JavaScript. */
  datatype Access = Throws | Undefined | Found(value: Value)

  /**
   * `v.error`: reading a property of `null` throws a TypeError; an object
   * yields its `error` member if it has one; every other value (numbers,
   * strings, booleans, arrays) has no such property and yields `undefined`.
   */
  function ErrorProperty(v: Value): (r: Access)
    ensures r.Throws? <==> v.Null?
    ensures r.Found? ==> v.Obj? && Lookup(v.members, "error") == Some(r.value)
    ensures v.Obj? && Lookup(v.members, "error").None? ==> r.Undefined?
    ensures v.Obj? && Lookup(v.members, "error").Some? ==> r == Found(Lookup(v.members, "error").value)
  {
    match v
    case Null => Throws
    case Obj(ms) =>
      (match Lookup(ms, "error")
       case Some(e) => Found(e)
       case None => Undefined)
    case _ => Undefined
  }

  /** A character `json.dumps` may emit: printable ASCII, space to tilde. */
  predicate IsPrintable(c: char) {
    ' ' <= c <= '~'
  }

  predicate IsPrintableText(s: string) {
    forall i :: 0 <= i < |s| ==> IsPrintable(s[i])
  }

  /** Four lower-case hex digits of a UTF-16 code unit, as in a `\u` escape. */
  function Hex4(n: nat): (r: string)
    requires n < 0x1_0000
    ensures |r| == 4 && IsPrintableText(r) && Hex.IsLowerHex(r)
  {
    [Hex.Digit(n / 0x1000), Hex.Digit(n / 0x100 % 16), Hex.Digit(n / 0x10 % 16), Hex.Digit(n % 16)]
  }

  /**
   * How `json.dumps` writes one character inside a string with
   * `ensure_ascii` on: quote and backslash are escaped, the five control
   * characters with short escapes use them, other printable ASCII is kept,
   * and every other character becomes `\uXXXX`, or a surrogate pair of them
   * above U+FFFF.
   */
  function EscapeChar(c: char): (r: string)
    ensures IsPrintableText(r) && r != ""
    ensures (IsPrintable(c) && c != '"' && c != '\\') <==> r == [c]
  {
    if c == '"' then "\\\""
    else if c == '\\' then "\\\\"
    else if c == '\n' then "\\n"
    else if c == '\r' then "\\r"
    else if c == '\t' then "\\t"
    else if c == '\U{0008}' then "\\b"
    else if c == '\U{000C}' then "\\f"
    else if IsPrintable(c) then [c]
    else if (c as int) < 0x1_0000 then "\\u" + Hex4(c as int)
    else
      var n := c as int - 0x1_0000;
      "\\u" + Hex4(0xD800 + n / 0x400) + "\\u" + Hex4(0xDC00 + n % 0x400)
  }

  function Escape(s: string): (r: string)
    ensures IsPrintableText(r)
  {
    if s == "" then "" else EscapeChar(s[0]) + Escape(s[1..])
  }

  /** A JSON string literal. */
  function Quote(s: string): (r: string)
    ensures IsPrintableText(r) && |r| >= 2 && r[0] == '"' && r[|r| - 1] == '"'
  {
    "\"" + Escape(s) + "\""
  }

  /** The parts separated by `sep`. */
  function JoinWith(sep: string, parts: seq<string>): (r: string)
    ensures IsPrintableText(sep) && (forall i :: 0 <= i < |parts| ==> IsPrintableText(parts[i]))
      ==> IsPrintableText(r)
  {
    if parts == [] then ""
    else if |parts| == 1 then parts[0]
    else parts[0] + sep + JoinWith(sep, parts[1..])
  }

  /**
   * `json.dumps(v)` with its default separators `", "` and `": "`. A number
   * is written as `<mantissa>e<exponent>`; only the value it denotes matters
   * to the reader, not Python's shortest digits.
   */
  function Dumps(v: Value): (r: string)
    ensures IsPrintableText(r) && r != ""
    ensures v.Obj? ==> r[0] == '{' && r[|r| - 1] == '}'
  {
    match v
    case Null => "null"
    case Bool(b) => if b then "true" else "false"
    case Num(m, e) =>
      assert IsPrintableText(Text.IntText(m)) && IsPrintableText(Text.IntText(e)) by {
        DigitsPrintable(m);
        DigitsPrintable(e);
      }
      Text.IntText(m) + "e" + Text.IntText(e)
    case Str(s) => Quote(s)
    case Arr(items) =>
      Enclose('[', seq(|items|, i requires 0 <= i < |items| => Dumps(items[i])), ']')
    case Obj(ms) =>
      Enclose('{', seq(|ms|, i requires 0 <= i < |ms| => DumpsMember(ms[i])), '}')
  }

  /** Printable parts joined by `", "` between an opening and a closing bracket. */
  function Enclose(open: char, parts: seq<string>, close: char): (r: string)
    requires IsPrintable(open) && IsPrintable(close)
    requires forall i :: 0 <= i < |parts| ==> IsPrintableText(parts[i])
    ensures IsPrintableText(r) && |r| >= 2 && r[0] == open && r[|r| - 1] == close
  {
    [open] + JoinWith(", ", parts) + [close]
  }

  function DumpsMember(m: Member): (r: string)
    ensures IsPrintableText(r)
  {
    Quote(m.key) + ": " + Dumps(m.value)
  }

  lemma DigitsPrintable(i: int)
    ensures IsPrintableText(Text.IntText(i))
  {
  }
}

=== FILE: paths.dfy ===
/**
 * The two POSIX path operations the controller uses to name its temporary
 * file: Node's `path.extname` and `path.join` of a directory and one name.
 *
 * The functions carry no postconditions; what they compute is stated by the
 * lemmas after them, so that a caller only pays for the facts it asks for.
 */
module Paths {
  import opened Wrappers

  /** `s` contains no separator. */
  predicate NoSlash(s: string) {
    forall i :: 0 <= i < |s| ==> s[i] != '/'
  }

  /** The position of the last `c` among the first `n` characters of `s`, if any. */
  function LastIndexBefore(s: string, c: char, n: nat): Option<nat>
    requires n <= |s|
  {
    if n == 0 then None
    else if s[n - 1] == c then Some(n - 1)
    else LastIndexBefore(s, c, n - 1)
  }

  /** The position of the last `c` in `s`, if any. */
  function LastIndexOf(s: string, c: char): Option<nat> {
    LastIndexBefore(s, c, |s|)
  }

  /** How much of the first `n` characters of `p` is left once the `/`s ending them are dropped. */
  function KeptLength(p: string, n: nat): nat
    requires n <= |p|
  {
    if n > 0 && p[n - 1] == '/' then KeptLength(p, n - 1) else n
  }

  /** The path without the separators at its end (`"a/b//"` becomes `"a/b"`). */
  function StripTrailingSlashes(p: string): string {
    var k := KeptLength(p, |p|);
    KeptLengthBounds(p, |p|);
    p[..k]
  }

  /** The last segment of a path: everything after its last separator, trailing separators ignored. */
  function LastSegment(p: string): string {
    var q := StripTrailingSlashes(p);
    match LastIndexOf(q, '/')
    case None => q
    case Some(i) =>
      LastIndexBeforeFound(q, '/', |q|);
      q[i + 1..]
  }

  /**
   * `path.extname(p)`: the last segment's text from its last `.` to its end,
   * or `""` when the segment has no `.`, when its last `.` is its first
   * character (a dot file such as `.profile`), or when the segment is `..`.
   */
  function Extname(p: string): string {
    var seg := LastSegment(p);
    match LastIndexOf(seg, '.')
    case None => ""
    case Some(i) =>
      LastIndexBeforeFound(seg, '.', |seg|);
      if i == 0 || seg == ".." then "" else seg[i..]
  }

  /**
   * POSIX `path.join(dir, name)` for an already normalised directory (no
   * `.` or `..` segments, no doubled separators, no trailing separator
   * except for the root itself) and a name without separators: the name
   * placed under the directory. Node would also normalise any other
   * directory; that is not modelled.
   */
  function Join(dir: string, name: string): string
    requires dir != ""
  {
    if dir[|dir| - 1] == '/' then dir + name else dir + "/" + name
  }

  /* ---------------- What they compute ---------------- */

  lemma KeptLengthBounds(p: string, n: nat)
    requires n <= |p|
    ensures KeptLength(p, n) <= n
  {
  }

  /** `LastIndexBefore` finds the last occurrence, or reports that there is none. */
  lemma {:induction false} LastIndexBeforeFound(s: string, c: char, n: nat)
    requires n <= |s|
    ensures var r := LastIndexBefore(s, c, n);
      (r.None? ==> forall i :: 0 <= i < n ==> s[i] != c)
      && (r.Some? ==> r.value < n && s[r.value] == c && forall i :: r.value < i < n ==> s[i] != c)
  {
    if n > 0 && s[n - 1] != c {
      LastIndexBeforeFound(s, c, n - 1);
    }
  }

  /** What is kept is a prefix not ending in `/`, and what is dropped is all `/`. */
  lemma {:induction false} StripTrailingSlashesSpec(p: string)
    ensures var r := StripTrailingSlashes(p);
      |r| <= |p| && r == p[..|r|] && (r == "" || r[|r| - 1] != '/')
      && forall i :: |r| <= i < |p| ==> p[i] == '/'
  {
    KeptLengthSpec(p, |p|);
  }

  lemma {:induction false} KeptLengthSpec(p: string, n: nat)
    requires n <= |p|
    ensures var k := KeptLength(p, n);
      k <= n && (k == 0 || p[k - 1] != '/') && forall i :: k <= i < n ==> p[i] == '/'
  {
    if n > 0 && p[n - 1] == '/' {
      KeptLengthSpec(p, n - 1);
    }
  }

  /** The last segment never contains a separator. */
  lemma LastSegmentNoSlash(p: string)
    ensures NoSlash(LastSegment(p))
  {
    var q := StripTrailingSlashes(p);
    StripTrailingSlashesSpec(p);
    LastIndexBeforeFound(q, '/', |q|);
  }

  /**
   * The extension is empty, or a `.` followed by no other `.`, and it is the
   * tail of the last segment; it is non-empty exactly when that segment has
   * a `.` after its first character and is not `..`.
   */
  lemma ExtnameSpec(p: string)
    ensures var r, seg := Extname(p), LastSegment(p);
      (r == "" || (r[0] == '.' && forall i :: 1 <= i < |r| ==> r[i] != '.'))
      && NoSlash(r)
      && |r| <= |seg| && r == seg[|seg| - |r|..]
      && (r != "" <==> (exists i :: 0 < i < |seg| && seg[i] == '.') && seg != "..")
  {
    var seg := LastSegment(p);
    LastSegmentNoSlash(p);
    LastIndexBeforeFound(seg, '.', |seg|);
    match LastIndexOf(seg, '.')
    case None =>
    case Some(i) =>
      if i != 0 && seg != ".." {
        var r := seg[i..];
        assert r[0] == '.';
        assert forall k :: 0 <= k < |r| ==> r[k] == seg[i + k];
      }
  }

  /** The extension never contains a separator. */
  lemma ExtnameNoSlash(p: string)
    ensures NoSlash(Extname(p))
  {
    ExtnameSpec(p);
  }

  /** Two texts without separators make one without separators. */
  lemma NoSlashConcat(a: string, b: string)
    requires NoSlash(a) && NoSlash(b)
    ensures NoSlash(a + b)
  {
    assert forall i :: |a| <= i < |a + b| ==> (a + b)[i] == b[i - |a|];
  }

  /** A name without separators joined under a directory is the path's last segment. */
  lemma JoinLastSegment(dir: string, name: string)
    requires dir != "" && NoSlash(name) && name != ""
    ensures var r := Join(dir, name);
      LastSegment(r) == name && r[|r| - |name| - 1] == '/'
  {
    var r := Join(dir, name);
    var k := |r| - |name| - 1;
    assert r[k] == '/';
    assert forall i :: k < i < |r| ==> r[i] == name[i - k - 1];
    StripTrailingSlashesSpec(r);
    assert StripTrailingSlashes(r) == r;
    LastIndexBeforeFound(r, '/', |r|);
    assert LastIndexOf(r, '/') == Some(k);
    assert r[k + 1..] == name;
  }
}

=== FILE: pipeline.dfy ===
/**
 * The worker and the controller together: what the worker prints reaches the
 * controller's `'close'` handler as the accumulated standard output, and the
 * worker's output protocol decides which reply the client gets.
 */
module Pipeline {
  import opened Wrappers
  import Text
  import Json
  import Worker
  import ImageController

  /** The text `print(json.dumps(v), flush=True)` writes, one line per printed value. */
  function StdoutText(lines: seq<Json.Value>): string {
    if lines == [] then ""
    else StdoutText(lines[..|lines| - 1]) + Json.Dumps(lines[|lines| - 1]) + "\n"
  }

  /** The text written for one value is its dump followed by a line break. */
  lemma OneValueText(v: Json.Value)
    ensures StdoutText([v]) == Json.Dumps(v) + "\n"
  {
    assert [v][..0] == [];
  }

  /**
   * A printable text in braces is one line: it has no line break of its own,
   * and trimming it with its line break gives it back.
   */
  lemma BracedLine(d: string)
    requires Json.IsPrintableText(d) && |d| >= 2 && d[0] == '{' && d[|d| - 1] == '}'
    ensures forall i :: 0 <= i < |d| ==> d[i] != '\n'
    ensures Text.Trim(d + "\n") == d
  {
    Text.TrimLine(d);
  }

  /**
   * One printed object is one line: its text has no line break of its own,
   * and trimming the output gives back exactly the dumped text.
   */
  lemma OneObjectIsOneLine(v: Json.Value)
    requires v.Obj?
    ensures var d := Json.Dumps(v);
      StdoutText([v]) == d + "\n"
      && (forall i :: 0 <= i < |d| ==> d[i] != '\n')
      && Text.Trim(StdoutText([v])) == d
  {
    OneValueText(v);
    BracedLine(Json.Dumps(v));
  }

  /** A clean exit after printing a result object yields the 200 reply carrying that object. */
  lemma CleanExitGivesPrediction(v: Json.Value, stderr: string)
    requires Worker.IsResultObject(v)
    ensures ImageController.CloseReply(Some(0), StdoutText([v]), stderr, ImageController.Parsed(v))
            == ImageController.Prediction(v)
  {
    OneObjectIsOneLine(v);
    Worker.ResultObjectHasNoError(v);
  }

  /**
   * Whatever the run, a worker that keeps its output protocol never makes the
   * controller report a self-reported classification error: a clean exit
   * becomes the 200 prediction carrying the printed object, and exit status 1
   * becomes the 500 "Image classification failed" reply, whose error object
   * is never read. `parsed` is what `JSON.parse` makes of the trimmed output,
   * so it is the printed object itself.
   */
  lemma ProtocolNeverSelfReportsError(t: Worker.Transcript, stderr: string,
                                                         parsed: ImageController.ParseOutcome)
    requires Worker.ProtocolHolds(t)
    requires parsed == ImageController.Parsed(t.stdout[0])
    ensures var r := ImageController.CloseReply(Some(t.exitStatus), StdoutText(t.stdout), stderr, parsed);
      !r.ClassificationError?
      && (t.exitStatus == 0 ==> r == ImageController.Prediction(t.stdout[0]) && r.Status() == 200)
      && (t.exitStatus == 1 ==> r == ImageController.ClassificationFailed(stderr, Some(1)) && r.Status() == 500)
  {
    if t.exitStatus == 0 {
      var v := t.stdout[0];
      assert t.stdout == [v];
      CleanExitGivesPrediction(v, stderr);
    }
  }

  /**
   * One upload end to end: the worker runs, the controller accumulates what
   * it printed and decides on close. The client gets the 200 prediction
   * exactly when the worker classifies the image, and otherwise the 500
   * "Image classification failed" reply; never a self-reported error.
   * `stderr` is the worker's diagnostic text as the controller received it.
   */
  method WorkerReply(env: Worker.Environment, stderr: string) returns (r: ImageController.Reply)
    requires env.baseDir != ""
    ensures !r.ClassificationError?
    ensures r.Prediction? <==> Worker.Classifies(env)
    ensures r.Status() == (if Worker.Classifies(env) then 200 else 500)
    ensures !Worker.Classifies(env) ==> r == ImageController.ClassificationFailed(stderr, Some(1))
  {
    var t := Worker.Run(env);
    var parsed := ImageController.Parsed(t.stdout[0]);
    ProtocolNeverSelfReportsError(t, stderr, parsed);
    r := ImageController.CloseReply(Some(t.exitStatus), StdoutText(t.stdout), stderr, parsed);
  }
}

=== FILE: text.dfy ===
/**
 * String helpers the controller and the worker rely on: JavaScript's
 * `String.prototype.trim` and Python's `str(i)` for a non-negative integer.
 */
module Text {

  /**
   * The characters `trim` removes: ECMAScript WhiteSpace (tab, vertical tab,
   * form feed, space, no-break space, byte order mark and the other Unicode
   * space separators) and LineTerminator (LF, CR, LS, PS).
   */
  predicate IsJsSpace(c: char) {
    c == '\t' || c == '\n' || c == '\U{000B}' || c == '\U{000C}' || c == '\r' || c == ' '
    || c == '\U{00A0}' || c == '\U{1680}' || ('\U{2000}' <= c <= '\U{200A}')
    || c == '\U{2028}' || c == '\U{2029}' || c == '\U{202F}' || c == '\U{205F}'
    || c == '\U{3000}' || c == '\U{FEFF}'
  }

  predicate AllSpace(s: string) {
    forall i :: 0 <= i < |s| ==> IsJsSpace(s[i])
  }

  /** Where the run of white space starting at `i` ends: the first later non-space position, or `|s|`. */
  function SpaceEnd(s: string, i: nat): nat
    requires i <= |s|
    decreases |s| - i
  {
    if i < |s| && IsJsSpace(s[i]) then SpaceEnd(s, i + 1) else i
  }

  /** Where the run of white space ending at `n` starts: just after the last earlier non-space, or 0. */
  function SpaceStart(s: string, n: nat): nat
    requires n <= |s|
  {
    if n > 0 && IsJsSpace(s[n - 1]) then SpaceStart(s, n - 1) else n
  }

  /** Drops the leading white space and nothing else. */
  function TrimStart(s: string): string {
    SpaceEndSpec(s, 0);
    s[SpaceEnd(s, 0)..]
  }

  /** Drops the trailing white space and nothing else. */
  function TrimEnd(s: string): string {
    SpaceStartSpec(s, |s|);
    s[..SpaceStart(s, |s|)]
  }

  /** `s.trim()`. */
  function Trim(s: string): string {
    TrimEnd(TrimStart(s))
  }

  lemma {:induction false} SpaceEndSpec(s: string, i: nat)
    requires i <= |s|
    decreases |s| - i
    ensures var e := SpaceEnd(s, i);
      i <= e <= |s| && (forall k :: i <= k < e ==> IsJsSpace(s[k])) && (e < |s| ==> !IsJsSpace(s[e]))
  {
    if i < |s| && IsJsSpace(s[i]) {
      SpaceEndSpec(s, i + 1);
    }
  }

  lemma {:induction false} SpaceStartSpec(s: string, n: nat)
    requires n <= |s|
    ensures var b := SpaceStart(s, n);
      b <= n && (forall k :: b <= k < n ==> IsJsSpace(s[k])) && (b > 0 ==> !IsJsSpace(s[b - 1]))
  {
    if n > 0 && IsJsSpace(s[n - 1]) {
      SpaceStartSpec(s, n - 1);
    }
  }

  /**
   * What `trim` leaves is a slice of the input that starts and ends with a
   * character that is not white space, and everything cut off around it is
   * white space.
   */
  lemma TrimIsMaximalSlice(s: string)
    ensures var t := Trim(s);
      exists a :: 0 <= a <= a + |t| <= |s| && t == s[a..a + |t|]
        && AllSpace(s[..a]) && AllSpace(s[a + |t|..])
        && (t != "" ==> !IsJsSpace(t[0]) && !IsJsSpace(t[|t| - 1]))
  {
    var a := SpaceEnd(s, 0);
    SpaceEndSpec(s, 0);
    var u := s[a..];
    var b := SpaceStart(u, |u|);
    SpaceStartSpec(u, |u|);
    var t := Trim(s);
    assert t == u[..b] == s[a..a + b];
    var before, after := s[..a], s[a + b..];
    assert AllSpace(before) by {
      forall k | 0 <= k < |before|
        ensures IsJsSpace(before[k])
      {
        assert before[k] == s[k];
      }
    }
    assert AllSpace(after) by {
      forall k | 0 <= k < |after|
        ensures IsJsSpace(after[k])
      {
        assert after[k] == u[b + k];
      }
    }
    if t != "" {
      assert t[0] == s[a] && t[|t| - 1] == u[b - 1];
    }
  }

  /** `trim` yields the empty string exactly when the input is all white space. */
  lemma TrimEmptyIff(s: string)
    ensures Trim(s) == "" <==> AllSpace(s)
  {
    var a := SpaceEnd(s, 0);
    SpaceEndSpec(s, 0);
    var u := s[a..];
    var b := SpaceStart(u, |u|);
    SpaceStartSpec(u, |u|);
    assert Trim(s) == u[..b];
    if a < |s| {
      assert u[0] == s[a];
    }
  }

  /**
   * A line of text that neither starts nor ends with white space, followed
   * by its line break, trims back to the line.
   */
  lemma TrimLine(line: string)
    requires line != "" && !IsJsSpace(line[0]) && !IsJsSpace(line[|line| - 1])
    ensures Trim(line + "\n") == line
  {
    var s := line + "\n";
    assert SpaceEnd(s, 0) == 0;
    assert TrimStart(s) == s;
    assert SpaceStart(s, |s|) == |line|;
    assert s[..|line|] == line;
  }

  /** A decimal digit character. */
  predicate IsDecimalDigit(c: char) {
    '0' <= c <= '9'
  }

  /** `str(n)` for a non-negative integer: its decimal digits, without leading zeros. */
  function Decimal(n: nat): (r: string)
    ensures r != "" && (forall i :: 0 <= i < |r| ==> IsDecimalDigit(r[i]))
    ensures |r| > 1 ==> r[0] != '0'
  {
    if n < 10 then [('0' as int + n) as char]
    else Decimal(n / 10) + [('0' as int + n % 10) as char]
  }

  /** The number a string of decimal digits denotes. */
  function DecimalValue(s: string): nat
    requires forall i :: 0 <= i < |s| ==> IsDecimalDigit(s[i])
  {
    if s == "" then 0
    else
      assert IsDecimalDigit(s[|s| - 1]);
      DecimalValue(s[..|s| - 1]) * 10 + (s[|s| - 1] as int - '0' as int)
  }

  /** Reading back the decimal text of `n` gives `n`. */
  lemma {:induction false} DecimalRoundTrip(n: nat)
    ensures DecimalValue(Decimal(n)) == n
  {
    if n >= 10 {
      DecimalRoundTrip(n / 10);
      assert Decimal(n)[..|Decimal(n)| - 1] == Decimal(n / 10);
    }
  }

  /** Distinct numbers have distinct decimal texts, so `str(i)` names one key. */
  lemma DecimalInjective(m: nat, n: nat)
    requires Decimal(m) == Decimal(n)
    ensures m == n
  {
    DecimalRoundTrip(m);
    DecimalRoundTrip(n);
  }

  /** Python's `str` of any integer: a minus sign before the digits of a negative one. */
  function IntText(i: int): (r: string)
    ensures r != "" && (r[0] == '-' <==> i < 0)
  {
    if i < 0 then "-" + Decimal(-i) else Decimal(i)
  }
}

=== FILE: worker.dfy ===
/**
 * The classification worker `server/classify.py`: its module-level setup
 * (model and label files, the label table), the `__main__` argument check and
 * the first `classify`. Every run that gets past the imports (lines 1-7)
 * prints exactly one JSON line on standard output, the result with exit
 * status 0 or an `{"error": ...}` object with exit status 1; all diagnostics
 * go to standard error.
 *
 * File checks, the JSON decoding of the labels file, the network's forward
 * pass and the printed streams are the parameters in `Environment`.
 */
module Worker {
  import opened Wrappers
  import Text
  import Paths
  import Json

  /* ---------------- The label table (lines 24-35) ---------------- */

  /** The distinct keys of an object, as a Python `dict` holds them. */
  function KeySet(members: seq<Json.Member>): set<string> {
    set i | 0 <= i < |members| :: members[i].key
  }

  /**
   * `[class_data[str(i)] for i in range(lo, hi)]`: the values under the keys
   * `"lo"`, ..., `"hi-1"`, or the first index whose key is missing (the
   * comprehension raises `KeyError` there).
   */
  function Table(members: seq<Json.Member>, lo: nat, hi: nat): (r: Result<seq<Json.Value>, nat>)
    requires lo <= hi
    decreases hi - lo
    ensures r.Ok? ==>
      |r.value| == hi - lo
      && forall k :: lo <= k < hi ==> Json.Lookup(members, Text.Decimal(k)) == Some(r.value[k - lo])
    ensures r.Err? ==>
      lo <= r.error < hi && Json.Lookup(members, Text.Decimal(r.error)).None?
      && forall j :: lo <= j < r.error ==> Json.Lookup(members, Text.Decimal(j)).Some?
  {
    if lo == hi then Ok([])
    else
      match Json.Lookup(members, Text.Decimal(lo))
      case None => Err(lo)
      case Some(v) =>
        match Table(members, lo + 1, hi)
        case Err(k) => Err(k)
        case Ok(rest) => Ok([v] + rest)
  }

  /** Python's name for the type of a decoded JSON value. */
  function PyTypeName(v: Json.Value): string {
    match v
    case Null => "NoneType"
    case Bool(_) => "bool"
    case Num(_, e) => if e == 0 then "int" else "float"
    case Str(_) => "str"
    case Arr(_) => "list"
    case Obj(_) => "dict"
  }

  /**
   * `class_names` after lines 29-35: a dict is read as the table of keys
   * `"0"`, ..., `"len-1"` (a missing key raises `KeyError`, whose text is the
   * key's repr); any other value is used as it is, so a list stays the list,
   * a string is indexed by character, and a value without a length raises a
   * `TypeError` at `len(class_names)`.
   */
  function ClassNames(data: Json.Value): (r: Result<seq<Json.Value>, string>)
    ensures data.Obj? && r.Ok? ==> |r.value| == |KeySet(data.members)|
    ensures data.Obj? && r.Err? ==>
      exists k :: 0 <= k < |KeySet(data.members)| && r.error == "'" + Text.Decimal(k) + "'"
                  && Json.Lookup(data.members, Text.Decimal(k)).None?
    ensures data.Arr? ==> r == Ok(data.items)
    ensures data.Str? ==>
      r.Ok? && |r.value| == |data.s| && forall i :: 0 <= i < |data.s| ==> r.value[i] == Json.Str([data.s[i]])
    ensures data.Null? || data.Bool? || data.Num? ==>
      r.Err? && r.error == "object of type '" + PyTypeName(data) + "' has no len()"
  {
    match data
    case Obj(ms) =>
      (match Table(ms, 0, |KeySet(ms)|)
       case Ok(names) => Ok(names)
       case Err(k) => Err("'" + Text.Decimal(k) + "'"))
    case Arr(items) => Ok(items)
    case Str(s) => Ok(seq(|s|, i requires 0 <= i < |s| => Json.Str([s[i]])))
    case _ => Err("object of type '" + PyTypeName(data) + "' has no len()")
  }

  /** The keys `"0"`, ..., `"n-1"`. */
  function DenseKeys(n: nat): set<string> {
    set i | 0 <= i < n :: Text.Decimal(i)
  }

  /** There are exactly `n` keys `"0"`, ..., `"n-1"`, since `str` is injective. */
  lemma {:induction false} DenseKeysCount(n: nat)
    ensures |DenseKeys(n)| == n
  {
    if n > 0 {
      DenseKeysCount(n - 1);
      assert DenseKeys(n) == DenseKeys(n - 1) + {Text.Decimal(n - 1)};
      if Text.Decimal(n - 1) in DenseKeys(n - 1) {
        var i :| 0 <= i < n - 1 && Text.Decimal(i) == Text.Decimal(n - 1);
        Text.DecimalInjective(i, n - 1);
      }
    }
  }

  /**
   * A dict whose keys are exactly `"0"`, ..., `"n-1"` becomes the list of
   * length `n` whose `i`-th element is `class_data[str(i)]`.
   */
  lemma DenseTableNormalises(ms: seq<Json.Member>, n: nat)
    requires KeySet(ms) == DenseKeys(n)
    ensures ClassNames(Json.Obj(ms)).Ok?
    ensures var names := ClassNames(Json.Obj(ms)).value;
      |names| == n && forall i :: 0 <= i < n ==> Json.Lookup(ms, Text.Decimal(i)) == Some(names[i])
  {
    DenseKeysCount(n);
    forall k | 0 <= k < n
      ensures Json.Lookup(ms, Text.Decimal(k)).Some?
    {
      assert Text.Decimal(k) in DenseKeys(n);
      var i :| 0 <= i < |ms| && ms[i].key == Text.Decimal(k);
    }
  }

  /** A range with a missing key does not make a table. */
  lemma {:induction false} TableFailsWithoutKey(ms: seq<Json.Member>, lo: nat, hi: nat, k: nat)
    requires lo <= k < hi && Json.Lookup(ms, Text.Decimal(k)).None?
    decreases hi - lo
    ensures Table(ms, lo, hi).Err?
  {
    if lo < k && Json.Lookup(ms, Text.Decimal(lo)).Some? {
      TableFailsWithoutKey(ms, lo + 1, hi, k);
    }
  }

  /**
   * A dict missing one of the keys `"0"`, ..., `"len-1"` cannot be read as a
   * table: the comprehension raises `KeyError` at the first missing index.
   */
  lemma MissingKeyFails(ms: seq<Json.Member>, k: nat)
    requires k < |KeySet(ms)| && Text.Decimal(k) !in KeySet(ms)
    ensures ClassNames(Json.Obj(ms)).Err?
  {
    assert forall i :: 0 <= i < |ms| ==> ms[i].key in KeySet(ms);
    assert Json.Lookup(ms, Text.Decimal(k)).None?;
    TableFailsWithoutKey(ms, 0, |KeySet(ms)|, k);
  }

  /* ---------------- One run of the script ---------------- */

  /** What `open` and `json.load` make of the labels file. */
  datatype LabelsLoad = LoadFails(message: string) | Loaded(data: Json.Value)

  /** Where building the network (line 39) or loading its weights (line 42) can raise. */
  datatype ModelStep = BuildNetwork | LoadWeights

  /** The library calls of `classify` that can raise, in the order they run (lines 68-78). */
  datatype LibraryStep = OpenImage | TransformImage | RunModel

  /** What the image and the network produce: an exception, or an index and its probability. */
  datatype Inference =
    | Raises(at: LibraryStep, message: string)
    | Predicts(index: nat, confidence: Json.Value)

  /** Everything outside the script that decides how a run goes. */
  datatype Environment = Environment(
    baseDir: string,                  // the script's directory
    modelFileExists: bool,
    labelsFileExists: bool,
    labels: LabelsLoad,
    modelFault: Option<(ModelStep, string)>,  // where setting up the network raised, and its message
    argv: seq<string>,                // `sys.argv`, the script's own path first
    imageExists: bool,                // `os.path.exists(sys.argv[1])`
    inference: Inference)

  /** The lines written to standard error. */
  datatype Diagnostic =
    | LoadedClassNames(count: nat)
    | LoadingModel
    | ModelLoaded
    | StartingFor(path: string)
    | Opening(path: string)
    | ImageSize
    | Transformed
    | PredictionAt(index: nat)
    | AnimalTypeIs(animalType: Json.Value)
    | AboutToOutput
    | OutputDone
    | ExceptionCaught(message: string)

  /** What a run leaves behind: the JSON values printed to standard output, one per line, the diagnostics, the exit status. */
  datatype Transcript = Transcript(stdout: seq<Json.Value>, stderr: seq<Diagnostic>, exitStatus: int)

  /** The success line, `{"animalType": ..., "confidence": ...}`. */
  function ResultObject(animalType: Json.Value, confidence: Json.Value): Json.Value {
    Json.Obj([Json.Member("animalType", animalType), Json.Member("confidence", confidence)])
  }

  predicate IsResultObject(v: Json.Value) {
    v.Obj? && |v.members| == 2
    && v.members[0].key == "animalType" && v.members[1].key == "confidence"
  }

  /** Reading `.error` of a result object in JavaScript gives `undefined`. */
  lemma ResultObjectHasNoError(v: Json.Value)
    requires IsResultObject(v)
    ensures Json.ErrorProperty(v).Undefined?
  {
    assert "animalType"[0] != "error"[0] && "confidence"[0] != "error"[0];
    assert forall i :: 0 <= i < |v.members| ==> v.members[i].key != "error";
  }

  /** A failure line `{"error": msg}` with a non-empty message. */
  predicate IsErrorReport(v: Json.Value) {
    v.Obj? && |v.members| == 1 && v.members[0].key == "error"
    && v.members[0].value.Str? && v.members[0].value.s != ""
  }

  /**
   * The output protocol: exactly one line on standard output, which is the
   * result object when the exit status is 0 and an error report when it is 1.
   */
  predicate ProtocolHolds(t: Transcript) {
    |t.stdout| == 1
    && (t.exitStatus == 0 || t.exitStatus == 1)
    && (t.exitStatus == 0 ==> IsResultObject(t.stdout[0]))
    && (t.exitStatus == 1 ==> IsErrorReport(t.stdout[0]))
  }

  function ModelPath(baseDir: string): string
    requires baseDir != ""
  {
    Paths.Join(Paths.Join(baseDir, "ml"), "model.pth")
  }

  function LabelsPath(baseDir: string): string
    requires baseDir != ""
  {
    Paths.Join(Paths.Join(baseDir, "ml"), "classes.json")
  }

  /** Setup (lines 9-57) gets through to a loaded model. */
  predicate SetupSucceeds(env: Environment) {
    env.modelFileExists && env.labelsFileExists && env.labels.Loaded?
    && ClassNames(env.labels.data).Ok? && env.modelFault.None?
  }

  /** The run reaches line 105: setup, arguments and image are fine and the index names a class. */
  predicate Classifies(env: Environment) {
    SetupSucceeds(env) && |env.argv| >= 2 && env.imageExists && env.inference.Predicts?
    && env.inference.index < |ClassNames(env.labels.data).value|
  }

  /** The diagnostics `classify` writes before the step that raises. */
  function DiagnosticsBefore(at: LibraryStep): seq<Diagnostic> {
    match at
    case OpenImage => []
    case TransformImage => [ImageSize]
    case RunModel => [ImageSize, Transformed]
  }

  /**
   * Running `python3 classify.py ...` once its imports have succeeded: the
   * setup guards, the argument check
   * and `classify`, each failure printing one error object to standard
   * output and exiting with 1 (`SystemExit` is not an `Exception`, so the
   * handlers never catch an exit), success printing the result and exiting
   * with 0.
   */
  method Run(env: Environment) returns (t: Transcript)
    requires env.baseDir != ""
    ensures ProtocolHolds(t)
    ensures t.exitStatus == 0 <==> Classifies(env)
    ensures Classifies(env) ==>
      var names := ClassNames(env.labels.data).value;
      t.stdout == [ResultObject(names[env.inference.index], env.inference.confidence)]
      && |t.stderr| > 0 && t.stderr[|t.stderr| - 1] == OutputDone
    ensures !env.modelFileExists ==>
      t == Transcript([Json.ErrorObject("Model file not found: " + ModelPath(env.baseDir))], [], 1)
    ensures env.modelFileExists && !env.labelsFileExists ==>
      t == Transcript([Json.ErrorObject("Labels file not found: " + LabelsPath(env.baseDir))], [], 1)
    ensures env.modelFileExists && env.labelsFileExists && env.labels.Loaded?
            && ClassNames(env.labels.data).Err? ==>
      t.stdout == [Json.ErrorObject("Setup error: " + ClassNames(env.labels.data).error)]
    ensures env.modelFileExists && env.labelsFileExists && env.labels.LoadFails? ==>
      t.stdout == [Json.ErrorObject("Setup error: " + env.labels.message)]
    ensures env.modelFileExists && env.labelsFileExists && env.labels.Loaded?
            && ClassNames(env.labels.data).Ok? && env.modelFault.Some? ==>
      t.stdout == [Json.ErrorObject("Setup error: " + env.modelFault.value.1)]
    ensures SetupSucceeds(env) && |env.argv| < 2 ==>
      t.stdout == [Json.ErrorObject("No image path provided")] && t.exitStatus == 1
    ensures SetupSucceeds(env) && |env.argv| >= 2 && !env.imageExists ==>
      t.stdout == [Json.ErrorObject("Image file not found: " + env.argv[1])] && t.exitStatus == 1
    ensures SetupSucceeds(env) && |env.argv| >= 2 && env.imageExists && env.inference.Raises? ==>
      t.stdout == [Json.ErrorObject("Classification error: " + env.inference.message)]
      && |t.stderr| > 0 && t.stderr[|t.stderr| - 1] == ExceptionCaught("Classification error: " + env.inference.message)
    ensures SetupSucceeds(env) && |env.argv| >= 2 && env.imageExists && env.inference.Predicts?
            && env.inference.index >= |ClassNames(env.labels.data).value| ==>
      var n := |ClassNames(env.labels.data).value|;
      t.stdout == [Json.ErrorObject("Invalid prediction index " + Text.Decimal(env.inference.index)
                                    + ", only have " + Text.Decimal(n) + " classes")]
  {
    var out: seq<Json.Value> := [];
    var err: seq<Diagnostic> := [];

    // Module-level setup.
    if !env.modelFileExists {
      out := out + [Json.ErrorObject("Model file not found: " + ModelPath(env.baseDir))];
      return Transcript(out, err, 1);
    }
    if !env.labelsFileExists {
      out := out + [Json.ErrorObject("Labels file not found: " + LabelsPath(env.baseDir))];
      return Transcript(out, err, 1);
    }
    if env.labels.LoadFails? {
      out := out + [Json.ErrorObject("Setup error: " + env.labels.message)];
      return Transcript(out, err, 1);
    }
    var names: seq<Json.Value>;
    match ClassNames(env.labels.data) {
      case Err(e) =>
        out := out + [Json.ErrorObject("Setup error: " + e)];
        return Transcript(out, err, 1);
      case Ok(ns) =>
        names := ns;
    }
    err := err + [LoadedClassNames(|names|)];
    if env.modelFault.Some? && env.modelFault.value.0 == BuildNetwork {
      out := out + [Json.ErrorObject("Setup error: " + env.modelFault.value.1)];
      return Transcript(out, err, 1);
    }
    err := err + [LoadingModel];
    if env.modelFault.Some? {
      out := out + [Json.ErrorObject("Setup error: " + env.modelFault.value.1)];
      return Transcript(out, err, 1);
    }
    err := err + [ModelLoaded];

    // The `__main__` block.
    if |env.argv| < 2 {
      out := out + [Json.ErrorObject("No image path provided")];
      return Transcript(out, err, 1);
    }
    var imagePath := env.argv[1];
    err := err + [StartingFor(imagePath)];

    // `classify(imagePath)`.
    if !env.imageExists {
      out := out + [Json.ErrorObject("Image file not found: " + imagePath)];
      return Transcript(out, err, 1);
    }
    err := err + [Opening(imagePath)];
    match env.inference {
      case Raises(at, message) =>
        var errorMsg := "Classification error: " + message;
        err := err + DiagnosticsBefore(at) + [ExceptionCaught(errorMsg)];
        out := out + [Json.ErrorObject(errorMsg)];
        return Transcript(out, err, 1);
      case Predicts(predIdx, confidence) =>
        err := err + [ImageSize, Transformed, PredictionAt(predIdx)];
        if predIdx >= |names| {
          var errorMsg := "Invalid prediction index " + Text.Decimal(predIdx) + ", only have "
                          + Text.Decimal(|names|) + " classes";
          out := out + [Json.ErrorObject(errorMsg)];
          return Transcript(out, err, 1);
        }
        var animalType := names[predIdx];
        err := err + [AnimalTypeIs(animalType), AboutToOutput];
        out := out + [ResultObject(animalType, confidence)];
        err := err + [OutputDone];
        return Transcript(out, err, 0);
    }
  }
}

=== FILE: wrappers.dfy ===
/** Small failure-carrying datatypes shared by the other modules. */
module Wrappers {

  /** A value that may be absent (JavaScript `null`, a Python `None`). */
  datatype Option<+T> = None | Some(value: T)

  /** The outcome of a step that may raise: a value, or the error it raised. */
  datatype Result<+T, +E> = Ok(value: T) | Err(error: E)
}
